=== FILE: README.md ===
# adaptive-googlemaps in Dafny

A model of the pure logic inside the `googlemaps` AngularJS directive of
adaptive-googlemaps (`demo/components/angular-adaptive/adaptive-googlemaps.js`). The directive shows a
static map image as the background of a link and, on click, either follows
a redirect link to a maps site or swaps in an interactive map. Four pieces of
its logic are modelled and proved here:

- **`getMapType`** (`map_types.dfy`): the map-type option turned into the
  one-letter `t=` code of the redirect link, or into a map-type id for the
  interactive map; every unknown value, absent included, means roadmap.
- **`buildStaticMap`** (`static_map.dfy`): the ordered static attributes
  serialised into the image URL's query, markers normalised to a list and
  expanded one `markers=` parameter per marker, parameters joined by a
  `reduce` that never adds a leading `&`; and the redirect link the
  geocoding callbacks build from the first marker.
- **Option validation in `link`** (`directive.dfy`): the three
  required-attribute checks in their order, then the `wxh` size check, as a
  `Result` carrying the error the directive throws.
- **The click handler** (`clicks.dfy`): one boolean `mapLoaded` and the
  `loadmap`/`redirect` flags copied once from `mapevents`; each click
  yields whether navigation is prevented and whether the interactive map is
  built. Lemmas cover arbitrary click sequences.

Supporting modules: `js_values.dfy` (JavaScript values, truthiness and
`String(v)`, which `encodeURIComponent` and string `+` apply first),
`strings.dfy` (`Array.prototype.join`, as `Strings.Join`, which the static
map uses at line 79 of `demo/components/angular-adaptive/adaptive-googlemaps.js`
for the marker parameters and, through the reduce, for the whole query; and
`String.prototype.split` with a one-character separator, with both
round-trip lemmas), `results.dfy`
(`Result`/`Option`), `dynamic_map.dfy` (which markers the interactive
map places). `Directive.Events` copies `mapevents` once when linking (line
173): each flag is its field's truthiness, and a missing `mapevents` leaves
both false.

`encodeURIComponent` is a parameter `encode: string -> string`. Results that
need it to escape `&` (which the real function does, as `%26`) say so with
`StaticMap.EscapesAmpersand`. The geocoder's answer is a parameter
`Geocode`: `Located(lat, lng)` or `Failed(message)`.

## Model

| member | source | states |
|---|---|---|
| MapTypes.GetMapType | demo/components/angular-adaptive/adaptive-googlemaps.js:46-57 | With `href` the result is a letter among k, p, h, m that reads back to the option's map type; without `href` it is that map type's id. |
| MapTypes.CodeRoundTrip | demo/components/angular-adaptive/adaptive-googlemaps.js:46-57 | Each map type has its own letter, and a letter reads back to a map type exactly when it is that type's letter. |
| MapTypes.HrefLetters | demo/components/angular-adaptive/adaptive-googlemaps.js:46-57 | The letter is k exactly for "satellite", p for "terrain", h for "hybrid", and m for every other value, undefined included. |
| MapTypes.HrefAgreesWithTypeId | demo/components/angular-adaptive/adaptive-googlemaps.js:46-57 | The link letter and the interactive map's type id always name the same map type. |
| MapTypes.KindOf | demo/components/angular-adaptive/adaptive-googlemaps.js:47-56 | The option is satellite, terrain or hybrid exactly when it strictly equals that name; every other value, undefined included, is roadmap. |
| StaticMap.Lookup | demo/components/angular-adaptive/adaptive-googlemaps.js:82 | `attrs[key]` is the value of the first entry with that key, undefined when no entry has it, and otherwise a value actually stored under the key. |
| StaticMap.LookupFirst | demo/components/angular-adaptive/adaptive-googlemaps.js:65 | An entry whose key no earlier entry repeats is the one `attrs[key]` reads. |
| StaticMap.MarkerList | demo/components/angular-adaptive/adaptive-googlemaps.js:67-71 | A non-array `markers` value becomes a one-element list, an array stays as it is; the list is empty only for an empty array. |
| StaticMap.MarkerSegments | demo/components/angular-adaptive/adaptive-googlemaps.js:76-79 | One `markers=` + encoded marker per marker, in list order. |
| StaticMap.Param | demo/components/angular-adaptive/adaptive-googlemaps.js:76-82 | An attribute's parameter is its pieces joined with `&`, and it is empty exactly when the attribute is `markers` holding an empty array. |
| StaticMap.Params | demo/components/angular-adaptive/adaptive-googlemaps.js:74-83 | One parameter per attribute in key order: `encode(key)=encode(value)` for every key except a truthy `markers`, which becomes its marker parameters joined by `&`. |
| StaticMap.ReduceStep | demo/components/angular-adaptive/adaptive-googlemaps.js:104-112 | One step of the reduce equals joining the non-empty-led pair with `&`: an empty accumulator yields the next parameter, otherwise `acc&p`. |
| StaticMap.Reduce | demo/components/angular-adaptive/adaptive-googlemaps.js:103-113 | The reduce from any accumulator equals joining the accumulator and the parameters with `&` after dropping leading empty values. |
| StaticMap.ReduceStepJoin | demo/components/angular-adaptive/adaptive-googlemaps.js:103-113 | Folding one parameter into the accumulator leaves the joined result unchanged. |
| StaticMap.ReduceIsJoin | demo/components/angular-adaptive/adaptive-googlemaps.js:103-113 | The reduce from "" equals joining with `&` after dropping leading empty parameters, so no separator is ever put first. |
| StaticMap.RedirectQuery | demo/components/angular-adaptive/adaptive-googlemaps.js:86 | The redirect query is the first marker (the scalar itself for a non-array value), or "" when markers are falsy or an empty array. |
| StaticMap.BuildStaticMap | demo/components/angular-adaptive/adaptive-googlemaps.js:63-113 | The image URL is the static prefix followed by the parameters joined with `&`, starting with the first non-empty parameter; geocoding is requested exactly when `redirect` is set and no location is known; the redirect query is the first marker. |
| StaticMap.ImageStartsWithFirstParam | demo/components/angular-adaptive/adaptive-googlemaps.js:74-113 | When the first attribute is not a truthy `markers`, the image URL continues right after the prefix with its `key=value`. |
| StaticMap.ScalarMarker | demo/components/angular-adaptive/adaptive-googlemaps.js:67-71 | A truthy non-array `markers` value is one marker: a single `markers=` parameter and the redirect query. |
| StaticMap.MarkerParamsSplit | demo/components/angular-adaptive/adaptive-googlemaps.js:76-79 | For a list of at least one marker, and an encoder that escapes `&`, splitting the joined marker parameters on `&` gives back exactly one `markers=` piece per marker, in order. |
| StaticMap.ParamsJoinSegments | demo/components/angular-adaptive/adaptive-googlemaps.js:75-83 | For at least one attribute and no `markers: []`, joining the parameters equals joining all attributes' individual pieces, in key order. |
| StaticMap.PlainSegments | demo/components/angular-adaptive/adaptive-googlemaps.js:74-83 | Attributes other than `markers` contribute one `key=value` piece each, in order, before the last attribute's pieces. |
| StaticMap.ImageQuerySegments | demo/components/angular-adaptive/adaptive-googlemaps.js:74-113 | The image URL's query split on `&` is exactly the attributes' pieces in key order. |
| StaticMap.RedirectHead | demo/components/angular-adaptive/adaptive-googlemaps.js:92-96 | The link head starts with the maps-site address, after a successful geocode continues with `ll=<lat>,<lng>&q=`, and always ends with `&q=` and the query, with nothing else in between: its length is exactly that of these parts. |
| StaticMap.RedirectHref | demo/components/angular-adaptive/adaptive-googlemaps.js:85-101 | The redirect link starts with the maps-site address and its head, and ends with `&z=`, the zoom's string form, `&t=` and the map type's letter. |
| StaticMap.RedirectHrefShape | demo/components/angular-adaptive/adaptive-googlemaps.js:92-96 | The link is the head, `&`, the zoom field, `&` and the type field, in that order. |
| StaticMap.RedirectFields | demo/components/angular-adaptive/adaptive-googlemaps.js:92-96 | Split on `&`, the link's last two fields read back as `z=<zoom>` and `t=<letter>` with the letter that `getMapType` gives, provided the zoom text has no `&`. |
| StaticMap.RedirectHrefAsWritten | demo/components/angular-adaptive/adaptive-googlemaps.js:92-96 | As written, the link starts with its head and always ends in `&z=undefined&t=m`, whatever the options. |
| Strings.Split | demo/components/angular-adaptive/adaptive-googlemaps.js:189 | `split` gives at least one piece and no piece contains the separator. |
| Strings.SplitCount | demo/components/angular-adaptive/adaptive-googlemaps.js:189-190 | Splitting gives one piece more than the separator's occurrences, so two pieces means exactly one `x`. |
| Strings.JoinSplit | demo/components/angular-adaptive/adaptive-googlemaps.js:189 | Joining the pieces with the separator gives the original string back. |
| Strings.SplitJoin | demo/components/angular-adaptive/adaptive-googlemaps.js:79 | Splitting a join of separator-free pieces gives the pieces back. |
| Clicks.Click | demo/components/angular-adaptive/adaptive-googlemaps.js:213-226 | A click builds the map exactly when it sets `mapLoaded`; a loaded map stays loaded; navigation is prevented exactly when one of the three arms fires. |
| Clicks.BranchOf | demo/components/angular-adaptive/adaptive-googlemaps.js:214-225 | The handler's arms as disjoint conditions: load exactly when `loadmap` and not loaded; block before load exactly without both flags; block after load exactly without `loadmap` once loaded; otherwise pass. |
| Clicks.Replay | demo/components/angular-adaptive/adaptive-googlemaps.js:212-226 | A sequence of n clicks yields n reactions. |
| Clicks.FirstClickLoads | demo/components/angular-adaptive/adaptive-googlemaps.js:214-219 | With `loadmap`, the first click prevents navigation, sets `mapLoaded` and builds the map. |
| Clicks.ClickKeepsReachable | demo/components/angular-adaptive/adaptive-googlemaps.js:212-226 | `mapLoaded` implies `loadmap` is kept by every click, so the third arm never fires. |
| Clicks.ReplayMonotone | demo/components/angular-adaptive/adaptive-googlemaps.js:212-219 | Over any click sequence `mapLoaded` never returns to false, and `mapLoaded` implies `loadmap` throughout. |
| Clicks.NoBuildAfterLoad | demo/components/angular-adaptive/adaptive-googlemaps.js:214-219 | Once loaded, no later click builds the map. |
| Clicks.BuiltAtMostOnce | demo/components/angular-adaptive/adaptive-googlemaps.js:212-219 | From the start, the map is built exactly once if `loadmap` is set and there is a click, never otherwise. |
| Clicks.PreventedClicks | demo/components/angular-adaptive/adaptive-googlemaps.js:213-226 | Click i is prevented exactly when it is the first click with `loadmap`, or `loadmap` and `redirect` are both unset. |
| Clicks.LoadedClicksPass | demo/components/angular-adaptive/adaptive-googlemaps.js:214-225 | After loading, no click is prevented. |
| Clicks.BlockedWithoutRedirect | demo/components/angular-adaptive/adaptive-googlemaps.js:220-222 | Without `redirect`, a click before loading is prevented, and without `loadmap` it leaves the state unchanged. |
| Clicks.RedirectNeverPrevented | demo/components/angular-adaptive/adaptive-googlemaps.js:214-225 | With `redirect` and without `loadmap`, no click of any sequence is prevented. |
| DynamicMap.MarkersPlacedAsWritten | demo/components/angular-adaptive/adaptive-googlemaps.js:131-133 | As written, an array places its elements in order, a string marker is placed once per character, and a non-array, non-string value places nothing. |
| DynamicMap.Characters | demo/components/angular-adaptive/adaptive-googlemaps.js:131-132 | Indexing a string gives one one-character string per position, in order. |
| DynamicMap.StringMarkerSplitAsWritten | demo/components/angular-adaptive/adaptive-googlemaps.js:131-133 | "Paris" is one marker on the static image but five one-letter markers on the interactive map. |
| DynamicMap.MarkersPlaced | demo/components/angular-adaptive/adaptive-googlemaps.js:131-133 | Corrected: an array places its elements in order, a truthy scalar places itself as one marker and a falsy value places none. |
| DynamicMap.MarkersPlacedMatchStatic | demo/components/angular-adaptive/adaptive-googlemaps.js:67-79 | The corrected markers are exactly those of the static image's `markers=` parameters, and the first is the redirect query. |
| DynamicMap.PlacedAgreesOnArrays | demo/components/angular-adaptive/adaptive-googlemaps.js:131-133 | On arrays and falsy values the corrected and the as-written marker lists coincide. |
| DynamicMap.BuildDynamicMap | demo/components/angular-adaptive/adaptive-googlemaps.js:118-139 | Corrected: the interactive map gets the option's map type; markers are placed only after a successful geocode, and then they are the corrected marker list: an array's elements in order, a truthy scalar as one marker, none for a falsy value. |
| Directive.Message | demo/components/angular-adaptive/adaptive-googlemaps.js:178-191 | The three required-attribute errors, and only they, have messages beginning "The `"; each names its own attribute, and the `sensor`, `size` and `center` texts belong to exactly those errors. |
| Directive.Validate | demo/components/angular-adaptive/adaptive-googlemaps.js:177-192 | Each error exactly under its condition, checked in order: sensor error exactly when `sensor` is undefined; size error when `size` is falsy; center error when `center` is falsy; a TypeError when `size` is truthy but not a string; the `wxh` error when it is a string without exactly one `x`; success otherwise. |
| Directive.ValidSizeIsWxH | demo/components/angular-adaptive/adaptive-googlemaps.js:189-192 | A size that passes is `w` + "x" + `h` with no `x` in either part. |
| Directive.WxHIsValid | demo/components/angular-adaptive/adaptive-googlemaps.js:189-192 | Any `w` + "x" + `h` size passes once `sensor` and `center` are given. |
| Directive.CopiedFlagsDriveClicks | demo/components/angular-adaptive/adaptive-googlemaps.js:173-226 | With the flags copied from the options, click i is prevented exactly when it is the first click with a truthy `loadmap` or both flags are falsy, and the map is built once exactly when `loadmap` is truthy; without `mapevents` every click is prevented and the map is never built. |
| Directive.StaticAttributes | demo/components/angular-adaptive/adaptive-googlemaps.js:194-201 | Six attributes whose keys are sensor, size, maptype, center, zoom, markers, in that order. |
| Directive.StaticAttributesLookup | demo/components/angular-adaptive/adaptive-googlemaps.js:194-201 | Reading each of the six keys back from the static attributes gives the option it was built from, absent ones as undefined. |
| Directive.Link | demo/components/angular-adaptive/adaptive-googlemaps.js:170-210 | Corrected: fails exactly when validation fails, with the same error; on success keeps the copied flags, the static image URL of the six attributes, and a redirect link exactly when `redirect` is set. |
| Directive.StaticImageStartsWithSensor | demo/components/angular-adaptive/adaptive-googlemaps.js:194-201 | The static image of the six attributes continues right after the prefix with the `sensor` parameter. |
| Directive.LinkImageStartsWithSensor | demo/components/angular-adaptive/adaptive-googlemaps.js:194-201 | The image URL continues right after the prefix with the `sensor` parameter. |
| Directive.StaticAttributeSegments | demo/components/angular-adaptive/adaptive-googlemaps.js:194-201 | The six attributes give five `key=value` pieces in the order sensor, size, maptype, center, zoom (absent ones included), then the marker pieces. |
| Directive.LinkImageQuery | demo/components/angular-adaptive/adaptive-googlemaps.js:194-210 | After a successful link, the image query split on `&` is exactly those pieces. |
| Directive.LinkRedirect | demo/components/angular-adaptive/adaptive-googlemaps.js:85-101 | Corrected: with `redirect`, the link carries the first marker as query and ends in `&z=` with the configured zoom and `&t=` with the configured map type's letter. |
| Directive.RedirectIgnoresOptionsAsWritten | demo/components/angular-adaptive/adaptive-googlemaps.js:92-96 | For a satellite map at zoom 10 the link as written ends `&z=undefined&t=m`, while reading the options gives `&z=10&t=k`. |
| Directive.DynamicMapFor | demo/components/angular-adaptive/adaptive-googlemaps.js:203-208 | Corrected: the interactive map uses the option's map type, is centred exactly after a successful geocode, and, after a successful geocode, the static image's marker list; after a failed geocode or with falsy markers it places none. |

## Findings

| source | as written | input that shows it | evidently intended | confidence | as-written member | corrected member |
|---|---|---|---|---|---|---|
| demo/components/angular-adaptive/adaptive-googlemaps.js:92-96 | The geocoding callbacks read `$scope.zoom` and `$scope.maptype`. The isolated scope only binds `options`, and nothing assigns these two fields. | options `{sensor: false, size: '600x400', center: 'Paris', maptype: 'satellite', zoom: 10, mapevents: {redirect: true}}` give a link ending `&z=undefined&t=m` | `options.zoom` and `options.maptype`, giving `&z=10&t=k` | medium, not executed | StaticMap.RedirectHrefAsWritten, Directive.RedirectIgnoresOptionsAsWritten | Directive.Link, Directive.LinkRedirect, StaticMap.RedirectFields |
| demo/components/angular-adaptive/adaptive-googlemaps.js:131-133 | The marker loop indexes the raw `markers` option. The static map wraps a scalar into a list, but this loop does not. | markers `'Paris'` places markers 'P', 'a', 'r', 'i', 's' | one marker 'Paris', as on the static image | high, not executed | DynamicMap.MarkersPlacedAsWritten, DynamicMap.StringMarkerSplitAsWritten | DynamicMap.MarkersPlaced, DynamicMap.MarkersPlacedMatchStatic, DynamicMap.BuildDynamicMap, Directive.DynamicMapFor |

## Left out

- The mapping library's objects (`Geocoder`, `Marker`, `Map`, `LatLng`, `MapTypeId`) are foreign calls. Geocoding is the `Geocode` parameter. Whether `setCenter` is called is `DynamicPlan.centred`, and the markers placed are listed. The position passed to `setCenter` and the `Marker` objects are not modelled.
- The callbacks are asynchronous. The redirect link is modelled as a function of the geocoding outcome.
- The coordinates `location.mb`/`location.nb` are undocumented library internals. They are given as strings.
- The interactive map's zoom, `Number(zoom) || 6`, needs floating-point and NaN semantics and is not modelled.
- `$scope.$apply`, `$log`, `console.log`, `updateStyle` and its style object, `element.bind` and `removeAttr` are framework and DOM plumbing.
- `encodeURIComponent` is a parameter. Its `URIError` on lone surrogates is not modelled.
- JavaScript numbers are integers here. Fractions, NaN and -0 are left out, because the options in question are strings, flags and lists.
- Plain objects are opaque. They convert to "[object Object]" and have no `length`. Sparse arrays are left out.
- A missing `options` binding throws in the controller, before linking: `$scope.updateStyle()` at line 156 reads `$scope.options.sensor` at line 145. It is not modelled.
- The `b !== undefined` test in the reduce never fails, because every parameter is a string. The model's reduce step has no such branch.
- The `TypeError` for a truthy non-string `size` has an engine-dependent message. Its text in `Directive.Message` is indicative.
- StaticMap.ImageQuerySegments: excludes a `markers` value of `[]`. That value's empty parameter leaves a doubled or trailing `&`. This case is covered by StaticMap.ReduceIsJoin and StaticMap.Param instead.
- Directive.LinkImageQuery: excludes `markers: []` for the same reason.
- StaticMap.MarkerParamsSplit: requires at least one marker. Splitting the empty join gives `[""]`, not the empty list.
- StaticMap.ParamsJoinSegments: requires at least one attribute and no `markers: []`. With `[]`, the empty parameter still gets a separator, so `sensor=…&` is not the join `sensor=…` of the pieces.
- DynamicMap.MarkersPlacedAsWritten: counts Dafny characters, while JavaScript's `length` and indexing count UTF-16 code units. A marker such as "😀" gives two iterations there, each placing half of a surrogate pair, and one here.
- JsValues.NumberToString: gives plain decimal digits for every integer. JavaScript switches to exponent form from 1e21 on ("1e+21"), and integers above 2^53 are not represented exactly.

=== FILE: clicks.dfy ===
/**
 * The click handler bound in the directive's `link`: a static map becomes
 * the dynamic map on the first click when `loadmap` is set, and the link's
 * default navigation is suppressed or let through depending on `redirect`.
 */
module Clicks {
  import opened MapEventFlags

  /** What one click does: whether the default action is prevented, whether the dynamic map is built. */
  datatype Reaction = Reaction(prevented: bool, buildsMap: bool)

  /** Which arm of the handler's `if … else if … else if` a click takes. */
  datatype Branch = LoadMap | BlockBeforeLoad | BlockAfterLoad | PassThrough

  function BranchOf(events: MapEvents, mapLoaded: bool): (b: Branch)
    ensures b == LoadMap <==> events.loadmap && !mapLoaded
    ensures b == BlockBeforeLoad <==> !events.loadmap && !events.redirect && !mapLoaded
    ensures b == BlockAfterLoad <==> !events.loadmap && mapLoaded
    ensures b == PassThrough <==>
      (events.loadmap && mapLoaded) || (!events.loadmap && events.redirect && !mapLoaded)
  {
    if events.loadmap && !mapLoaded then LoadMap
    else if !events.redirect && !mapLoaded then BlockBeforeLoad
    else if !events.loadmap && mapLoaded then BlockAfterLoad
    else PassThrough
  }

  /** The handler: the new value of `mapLoaded` and what the click did. */
  function Click(events: MapEvents, mapLoaded: bool): (r: (bool, Reaction))
    ensures r.1.buildsMap <==> !mapLoaded && r.0
    ensures mapLoaded ==> r.0
    ensures r.1.prevented <==> BranchOf(events, mapLoaded) != PassThrough
  {
    match BranchOf(events, mapLoaded)
    case LoadMap => (true, Reaction(true, true))
    case BlockBeforeLoad => (mapLoaded, Reaction(true, false))
    case BlockAfterLoad => (mapLoaded, Reaction(true, false))
    case PassThrough => (mapLoaded, Reaction(false, false))
  }

  /** `n` clicks from `mapLoaded`: the final value of `mapLoaded` and each click's reaction, in order. */
  function Replay(events: MapEvents, mapLoaded: bool, n: nat): (r: (bool, seq<Reaction>))
    ensures |r.1| == n
    decreases n
  {
    if n == 0 then (mapLoaded, [])
    else
      var (loaded, reaction) := Click(events, mapLoaded);
      var (final, rest) := Replay(events, loaded, n - 1);
      (final, [reaction] + rest)
  }

  /** Number of reactions that built the dynamic map. */
  function Builds(rs: seq<Reaction>): nat
  {
    if |rs| == 0 then 0 else (if rs[0].buildsMap then 1 else 0) + Builds(rs[1..])
  }

  /** States the handler can be in: the map is only ever loaded when `loadmap` is set. */
  predicate Reachable(events: MapEvents, mapLoaded: bool)
  {
    mapLoaded ==> events.loadmap
  }

  /** With `loadmap`, the first click prevents navigation, loads the map and builds it. */
  lemma FirstClickLoads(events: MapEvents)
    requires events.loadmap
    ensures Click(events, false) == (true, Reaction(true, true))
  {
  }

  /** Every click keeps the handler in a reachable state, in which the third arm never fires. */
  lemma ClickKeepsReachable(events: MapEvents, mapLoaded: bool)
    requires Reachable(events, mapLoaded)
    ensures Reachable(events, Click(events, mapLoaded).0)
    ensures BranchOf(events, mapLoaded) != BlockAfterLoad
  {
  }

  /** Over any number of clicks `mapLoaded` never goes back to false, and reachability is kept. */
  lemma {:induction false} ReplayMonotone(events: MapEvents, mapLoaded: bool, n: nat)
    ensures mapLoaded ==> Replay(events, mapLoaded, n).0
    ensures Reachable(events, mapLoaded) ==> Reachable(events, Replay(events, mapLoaded, n).0)
    decreases n
  {
    if n > 0 {
      ReplayMonotone(events, Click(events, mapLoaded).0, n - 1);
    }
  }

  /** Once loaded, no further click builds the map again. */
  lemma {:induction false} NoBuildAfterLoad(events: MapEvents, n: nat)
    ensures Builds(Replay(events, true, n).1) == 0
  {
    if n > 0 {
      var rs := Replay(events, true, n).1;
      NoBuildAfterLoad(events, n - 1);
      assert rs[1..] == Replay(events, true, n - 1).1;
    }
  }

  /** From the initial state the dynamic map is built exactly once when `loadmap` is set and there is a click, never otherwise. */
  lemma {:induction false} BuiltAtMostOnce(events: MapEvents, n: nat)
    ensures Builds(Replay(events, false, n).1) == (if events.loadmap && n > 0 then 1 else 0)
    ensures Builds(Replay(events, false, n).1) <= 1
  {
    if n > 0 {
      var rs := Replay(events, false, n).1;
      if events.loadmap {
        NoBuildAfterLoad(events, n - 1);
        assert rs[1..] == Replay(events, true, n - 1).1;
      } else {
        BuiltAtMostOnce(events, n - 1);
        assert rs[1..] == Replay(events, false, n - 1).1;
      }
    }
  }

  /** Which clicks of a sequence starting from the initial state are prevented: with `loadmap`
      only the first; without it, all of them when `redirect` is unset and none when it is set. */
  lemma {:induction false} PreventedClicks(events: MapEvents, n: nat, i: nat)
    requires i < n
    ensures Replay(events, false, n).1[i].prevented <==>
      (events.loadmap && i == 0) || (!events.loadmap && !events.redirect)
  {
    var rs := Replay(events, false, n).1;
    if events.loadmap {
      if i > 0 {
        assert rs[1..] == Replay(events, true, n - 1).1;
        LoadedClicksPass(events, n - 1, i - 1);
        assert rs[i] == rs[1..][i - 1];
      }
    } else if i > 0 {
      assert rs[1..] == Replay(events, false, n - 1).1;
      PreventedClicks(events, n - 1, i - 1);
      assert rs[i] == rs[1..][i - 1];
    }
  }

  /** After the map is loaded (which needs `loadmap`), no click is prevented. */
  lemma {:induction false} LoadedClicksPass(events: MapEvents, n: nat, i: nat)
    requires events.loadmap
    requires i < n
    ensures !Replay(events, true, n).1[i].prevented
  {
    if i > 0 {
      var rs := Replay(events, true, n).1;
      assert rs[1..] == Replay(events, true, n - 1).1;
      LoadedClicksPass(events, n - 1, i - 1);
      assert rs[i] == rs[1..][i - 1];
    }
  }

  /** Without `redirect`, a click before loading is prevented; when `loadmap` is unset it also changes nothing. */
  lemma BlockedWithoutRedirect(events: MapEvents)
    requires !events.redirect
    ensures Click(events, false).1.prevented
    ensures !events.loadmap ==> Click(events, false) == (false, Reaction(true, false))
  {
  }

  /** With `redirect` and without `loadmap`, no click in any sequence is prevented. */
  lemma {:induction false} RedirectNeverPrevented(events: MapEvents, n: nat)
    requires events.redirect && !events.loadmap
    ensures forall i :: 0 <= i < n ==> !Replay(events, false, n).1[i].prevented
  {
    forall i | 0 <= i < n
      ensures !Replay(events, false, n).1[i].prevented
    {
      PreventedClicks(events, n, i);
    }
  }
}

=== FILE: directive.dfy ===
/**
 * The `googlemaps` directive's `link`: the options are validated, the
 * static map is built from six attributes in a fixed order, and the click
 * handler is armed with the `mapevents` flags copied at that moment.
 */
module Directive {
  import opened JsValues
  import opened Results
  import opened MapTypes
  import Strings
  import StaticMap
  import DynamicMap
  import MapEventFlags
  import Clicks

  /** The `mapevents` option; a missing object or a missing flag reads as undefined. */
  datatype MapEventsOption = MapEventsOption(loadmap: Value, redirect: Value)

  /** The directive's `options` binding; an attribute that is not given is `Undefined`. */
  datatype Options = Options(
    sensor: Value,
    size: Value,
    maptype: Value,
    center: Value,
    zoom: Value,
    markers: Value,
    mapevents: MapEventsOption)

  /** The errors `link` throws, in the order it checks for them. */
  datatype LinkError =
    | SensorRequired
    | SizeRequired
    | CenterRequired
    /** `size` is truthy but not a string, so it has no `split` and the call throws a TypeError. */
    | SizeNotString
    | SizeFormat

  /** The message for a missing required attribute, which names the attribute in backquotes. */
  function Required(name: string): (m: string)
    ensures "The `" + name + "`" <= m
  {
    var m := "The `" + name + "` attribute is required.";
    assert m == ("The `" + name + "`") + " attribute is required.";
    m
  }

  /** The message of each error the directive throws itself. */
  function Message(e: LinkError): (m: string)
    ensures e in {SensorRequired, SizeRequired, CenterRequired} <==> "The `" <= m
    ensures e == SensorRequired <==> "The `sensor`" <= m
    ensures e == SizeRequired <==> "The `size`" <= m
    ensures e == CenterRequired <==> "The `center`" <= m
  {
    match e
    case SensorRequired =>
      var m := Required("sensor");
      assert m[5] == 's' && m[6] == 'e';
      m
    case SizeRequired =>
      var m := Required("size");
      assert m[5] == 's' && m[6] == 'i';
      m
    case CenterRequired =>
      var m := Required("center");
      assert m[5] == 'c';
      m
    case SizeNotString =>
      var m := "size.split is not a function";
      assert m[0] != 'T';
      m
    case SizeFormat =>
      var m := "Size must be specified as `wxh`.";
      assert m[1] != 'h';
      m
  }

  /** `size` written as width, `x`, height. */
  function Dimensions(w: string, h: string): string
  {
    w + "x" + h
  }

  /**
   * The checks at the start of `link`, in order: `sensor` must not be
   * undefined (null and false pass), `size` and `center` must be truthy,
   * and `size.split('x')` must give exactly two pieces.
   */
  function Validate(o: Options): (r: Result<(), LinkError>)
    ensures r == Err(SensorRequired) <==> o.sensor == Undefined
    ensures r == Err(SizeRequired) <==> o.sensor != Undefined && !Truthy(o.size)
    ensures r == Err(CenterRequired) <==>
      o.sensor != Undefined && Truthy(o.size) && !Truthy(o.center)
    ensures r.Ok? <==>
      o.sensor != Undefined && Truthy(o.center) && o.size.Str? && Strings.Count(o.size.s, 'x') == 1
    ensures r == Err(SizeNotString) <==>
      o.sensor != Undefined && Truthy(o.size) && Truthy(o.center) && !o.size.Str?
    ensures r == Err(SizeFormat) <==>
      o.sensor != Undefined && Truthy(o.size) && Truthy(o.center)
      && o.size.Str? && Strings.Count(o.size.s, 'x') != 1
  {
    if o.sensor == Undefined then Err(SensorRequired)
    else if !Truthy(o.size) then Err(SizeRequired)
    else if !Truthy(o.center) then Err(CenterRequired)
    else if !o.size.Str? then Err(SizeNotString)
    else
      var bits := Strings.Split(o.size.s, 'x');
      Strings.SplitCount(o.size.s, 'x');
      if |bits| != 2 then Err(SizeFormat) else Ok(())
  }

  /** A size that passes is exactly `w` + "x" + `h` with no `x` in `w` or `h`. */
  lemma ValidSizeIsWxH(o: Options)
    requires Validate(o).Ok?
    ensures exists w, h :: 'x' !in w && 'x' !in h && o.size == Str(Dimensions(w, h))
  {
    var bits := Strings.Split(o.size.s, 'x');
    Strings.SplitCount(o.size.s, 'x');
    Strings.JoinSplit(o.size.s, 'x');
    assert Strings.Join(bits, "x") == bits[0] + "x" + Strings.Join(bits[1..], "x");
    assert o.size.s == Dimensions(bits[0], bits[1]);
  }

  /** Conversely, any `w` + "x" + `h` size passes once `sensor` and `center` are given. */
  lemma WxHIsValid(o: Options, w: string, h: string)
    requires 'x' !in w && 'x' !in h
    requires o.size == Str(Dimensions(w, h))
    requires o.sensor != Undefined && Truthy(o.center)
    ensures Validate(o).Ok?
  {
    assert "x" == ['x'];
    assert Strings.Join([w, h], "x") == Dimensions(w, h);
    Strings.SplitJoin([w, h], 'x');
  }

  /** The flags copied from `mapevents`, read for truthiness. */
  function Events(o: Options): (e: MapEventFlags.MapEvents)
    ensures e.loadmap <==> Truthy(o.mapevents.loadmap)
    ensures e.redirect <==> Truthy(o.mapevents.redirect)
    ensures o.mapevents == MapEventsOption(Undefined, Undefined) ==> !e.loadmap && !e.redirect
  {
    MapEventFlags.MapEvents(Truthy(o.mapevents.loadmap), Truthy(o.mapevents.redirect))
  }

  /**
   * What the copy of `mapevents` made when linking means for the click
   * handler: from the initial state, click `i` of `n` is prevented exactly
   * when it is the first click with a truthy `loadmap`, or both flags are
   * falsy; the map is built once when `loadmap` is truthy and there is a
   * click. Without a `mapevents` object every click is prevented and the
   * map is never built.
   */
  lemma CopiedFlagsDriveClicks(o: Options, n: nat, i: nat)
    requires i < n
    ensures Clicks.Replay(Events(o), false, n).1[i].prevented <==>
      (Truthy(o.mapevents.loadmap) && i == 0)
      || (!Truthy(o.mapevents.loadmap) && !Truthy(o.mapevents.redirect))
    ensures Clicks.Builds(Clicks.Replay(Events(o), false, n).1) ==
      (if Truthy(o.mapevents.loadmap) then 1 else 0)
    ensures o.mapevents == MapEventsOption(Undefined, Undefined) ==>
      Clicks.Replay(Events(o), false, n).1[i].prevented
      && Clicks.Builds(Clicks.Replay(Events(o), false, n).1) == 0
  {
    Clicks.PreventedClicks(Events(o), n, i);
    Clicks.BuiltAtMostOnce(Events(o), n);
  }

  /** The keys of the static attributes, in the order the object literal lists them. */
  const StaticKeys: seq<string> := ["sensor", "size", "maptype", "center", "zoom", "markers"]

  /** The static attributes, in this key order; absent options stay as keys with an undefined value. */
  function StaticAttributes(o: Options): (attrs: seq<StaticMap.Attribute>)
    ensures |attrs| == 6
    ensures forall i :: 0 <= i < 6 ==>
      attrs[i].key == StaticKeys[i]
  {
    [ StaticMap.Attribute("sensor", o.sensor),
      StaticMap.Attribute("size", o.size),
      StaticMap.Attribute("maptype", o.maptype),
      StaticMap.Attribute("center", o.center),
      StaticMap.Attribute("zoom", o.zoom),
      StaticMap.Attribute("markers", o.markers) ]
  }

  /** No key of the static attributes is repeated. */
  lemma StaticKeysDistinct()
    ensures forall i, j :: 0 <= j < i < 6 ==> StaticKeys[j] != StaticKeys[i]
  {
  }

  /** The six keys are distinct, so reading any of them back gives the option it was built from. */
  lemma StaticAttributesLookup(o: Options)
    ensures StaticMap.Lookup(StaticAttributes(o), "sensor") == o.sensor
    ensures StaticMap.Lookup(StaticAttributes(o), "size") == o.size
    ensures StaticMap.Lookup(StaticAttributes(o), "maptype") == o.maptype
    ensures StaticMap.Lookup(StaticAttributes(o), "center") == o.center
    ensures StaticMap.Lookup(StaticAttributes(o), "zoom") == o.zoom
    ensures StaticMap.Lookup(StaticAttributes(o), "markers") == o.markers
  {
    var a := StaticAttributes(o);
    StaticKeysDistinct();
    StaticMap.LookupFirst(a, 0);
    StaticMap.LookupFirst(a, 1);
    StaticMap.LookupFirst(a, 2);
    StaticMap.LookupFirst(a, 3);
    StaticMap.LookupFirst(a, 4);
    StaticMap.LookupFirst(a, 5);
  }

  /** The state `link` leaves behind: the copied flags, the static map and, with `redirect`, the redirect link. */
  datatype Linked = Linked(events: MapEventFlags.MapEvents, imgsrc: string, href: Option<string>)

  /**
   * `link` for the given `encodeURIComponent` and the given outcome of
   * geocoding the centre. The redirect link reads zoom and map type from
   * the options (see `StaticMap.RedirectHrefAsWritten` for what the
   * callbacks read instead).
   */
  function Link(encode: StaticMap.Encoder, o: Options, geo: StaticMap.Geocode): (r: Result<Linked, LinkError>)
    ensures r.Err? <==> Validate(o).Err?
    ensures r.Err? ==> r.error == Validate(o).error
    ensures r.Ok? ==> r.value.events == Events(o)
    ensures r.Ok? ==> (r.value.href.Some? <==> Truthy(o.mapevents.redirect))
    ensures r.Ok? ==> r.value.imgsrc == StaticMap.BuildStaticMap(encode, Events(o), StaticAttributes(o), false).imgsrc
  {
    match Validate(o)
    case Err(e) => Err(e)
    case Ok(_) =>
      var events := Events(o);
      var attrs := StaticAttributes(o);
      var built := StaticMap.BuildStaticMap(encode, events, attrs, false);
      var href :=
        if built.requestsGeocode
        then Some(StaticMap.RedirectHref(geo, built.query, o.zoom, o.maptype))
        else None;
      Ok(Linked(events, built.imgsrc, href))
  }

  /** The static image of the six attributes starts with the `sensor` parameter right after the prefix. */
  lemma StaticImageStartsWithSensor(encode: StaticMap.Encoder, events: MapEventFlags.MapEvents, o: Options)
    ensures StaticMap.StaticUrl + (encode("sensor") + "=" + encode(ToString(o.sensor)))
      <= StaticMap.BuildStaticMap(encode, events, StaticAttributes(o), false).imgsrc
  {
    var attrs := StaticAttributes(o);
    assert attrs[0] == StaticMap.Attribute("sensor", o.sensor);
    StaticMap.ImageStartsWithFirstParam(encode, events, attrs, false);
    var first := StaticMap.PlainParam(encode, attrs[0]);
    assert first == encode("sensor") + "=" + encode(ToString(o.sensor));
  }

  /** The image URL starts with the `sensor` parameter right after the prefix: there is no leading `&`. */
  lemma LinkImageStartsWithSensor(encode: StaticMap.Encoder, o: Options, geo: StaticMap.Geocode)
    requires Validate(o).Ok?
    ensures StaticMap.StaticUrl + (encode("sensor") + "=" + encode(ToString(o.sensor)))
      <= Link(encode, o, geo).value.imgsrc
  {
    StaticImageStartsWithSensor(encode, Events(o), o);
  }

  /** The pieces of the six static attributes: five `key=value` pieces, then the marker pieces. */
  lemma {:induction false} StaticAttributeSegments(encode: StaticMap.Encoder, o: Options)
    ensures StaticMap.AllSegments(encode, StaticAttributes(o)) ==
      [ encode("sensor") + "=" + encode(ToString(o.sensor)),
        encode("size") + "=" + encode(ToString(o.size)),
        encode("maptype") + "=" + encode(ToString(o.maptype)),
        encode("center") + "=" + encode(ToString(o.center)),
        encode("zoom") + "=" + encode(ToString(o.zoom)) ]
      + StaticMap.Segments(encode, StaticMap.Attribute("markers", o.markers))
  {
    var attrs := StaticAttributes(o);
    var m := StaticMap.Attribute("markers", o.markers);
    var plain := attrs[..5];
    StaticKeysDistinct();
    assert forall i :: 0 <= i < 5 ==> plain[i].key == StaticKeys[i];
    assert attrs == plain + [m];
    StaticMap.PlainSegments(encode, plain, m);
  }

  /**
   * On success the image URL's query, split on `&`, is the five plain
   * attributes in order followed by the marker parameters: one per marker,
   * or `markers=<value>` when the option is falsy.
   */
  lemma LinkImageQuery(encode: StaticMap.Encoder, o: Options, geo: StaticMap.Geocode)
    requires StaticMap.EscapesAmpersand(encode)
    requires Validate(o).Ok?
    requires o.markers != Arr([])
    ensures var src := Link(encode, o, geo).value.imgsrc;
      StaticMap.StaticUrl <= src
      && Strings.Split(src[|StaticMap.StaticUrl|..], '&') ==
        StaticMap.AllSegments(encode, StaticAttributes(o))
  {
    var attrs := StaticAttributes(o);
    StaticKeysDistinct();
    assert StaticMap.NoEmptyMarkers(attrs) by {
      forall i | 0 <= i < |attrs|
        ensures attrs[i] != StaticMap.Attribute("markers", Arr([]))
      {
        if i < 5 {
          assert attrs[i].key != StaticKeys[5];
        }
      }
    }
    var built := StaticMap.BuildStaticMap(encode, Events(o), attrs, false);
    assert Link(encode, o, geo).value.imgsrc == built.imgsrc;
    StaticMap.ImageQuerySegments(encode, Events(o), attrs, false);
  }

  /**
   * With `redirect`, the redirect link carries the first marker as its
   * query and ends in the configured zoom and the letter of the configured
   * map type.
   */
  lemma LinkRedirect(encode: StaticMap.Encoder, o: Options, geo: StaticMap.Geocode)
    requires Validate(o).Ok?
    requires Truthy(o.mapevents.redirect)
    ensures var href := Link(encode, o, geo).value.href;
      && href == Some(StaticMap.RedirectHref(geo, StaticMap.RedirectQuery(StaticAttributes(o)), o.zoom, o.maptype))
      && href.value[|href.value| - 1] == HrefCode(KindOf(o.maptype))
      && Strings.EndsWith(href.value, "&z=" + ToString(o.zoom) + "&t=" + [HrefCode(KindOf(o.maptype))])
  {
  }

  /**
   * The callbacks' own reading of zoom and map type ignores the options: a
   * satellite map at zoom 10 gets a roadmap link at an undefined zoom,
   * where reading the options gives `z=10` and `t=k`.
   */
  lemma RedirectIgnoresOptionsAsWritten(geo: StaticMap.Geocode, query: string)
    ensures Strings.EndsWith(StaticMap.RedirectHrefAsWritten(geo, query), "&z=undefined&t=m")
    ensures Strings.EndsWith(StaticMap.RedirectHref(geo, query, Num(10), Str("satellite")), "&z=10&t=k")
  {
    assert Digits(10) == Digits(1) + [DigitChar(0)];
    assert "&z=" + ToString(Num(10)) + "&t=" + [HrefCode(KindOf(Str("satellite")))] == "&z=10&t=k";
  }

  /** The dynamic map built on the loading click, from the dynamic attributes and the geocoding outcome of the centre. */
  function DynamicMapFor(o: Options, geo: StaticMap.Geocode): (p: DynamicMap.DynamicPlan)
    ensures p.mapType == KindOf(o.maptype)
    ensures p.centred <==> geo.Located?
    ensures geo.Located? && Truthy(o.markers) ==> p.markers == StaticMap.MarkerList(o.markers)
    ensures geo.Failed? || !Truthy(o.markers) ==> p.markers == []
  {
    DynamicMap.BuildDynamicMap(o.maptype, o.markers, geo)
  }
}

=== FILE: dynamic_map.dfy ===
/**
 * `buildDynamicMap`: the interactive map built on the loading click. The
 * mapping library's objects are out of reach; what is modelled is the map
 * type it is given and the list of markers it places once the centre has
 * been geocoded.
 */
module DynamicMap {
  import opened JsValues
  import opened MapTypes
  import Strings
  import StaticMap

  /**
   * The markers the loop over `dynamicAttributes.markers` places, as
   * written: it indexes the raw option from 0 while `i < markers.length`.
   * An array gives its elements; a string has a length too, so it gives
   * one single-character string per character; any other value has no
   * length and gives nothing.
   */
  function MarkersPlacedAsWritten(markers: Value): (placed: seq<Value>)
    ensures markers.Str? ==> |placed| == |markers.s|
    ensures markers.Str? ==> forall i :: 0 <= i < |placed| ==> placed[i] == Str([markers.s[i]])
    ensures !markers.Arr? && !markers.Str? ==> placed == []
    ensures markers.Arr? ==> placed == markers.items
  {
    if !Truthy(markers) then []
    else match markers
      case Arr(items) => items
      case Str(s) => Characters(s)
      case _ => []
  }

  /** `s[0]`, `s[1]`, …: each character of a string as a one-character string. */
  function Characters(s: string): (cs: seq<Value>)
    ensures |cs| == |s|
    ensures forall i :: 0 <= i < |s| ==> cs[i] == Str([s[i]])
  {
    if |s| == 0 then [] else [Str([s[0]])] + Characters(s[1..])
  }

  /**
   * A string marker is split into characters: "Paris" is one marker on the
   * static image and the redirect link, but five markers "P", "a", "r",
   * "i", "s" on the dynamic map.
   */
  lemma StringMarkerSplitAsWritten(encode: StaticMap.Encoder)
    ensures |StaticMap.MarkerList(Str("Paris"))| == 1
    ensures StaticMap.Param(encode, StaticMap.Attribute("markers", Str("Paris"))) == "markers=" + encode("Paris")
    ensures |MarkersPlacedAsWritten(Str("Paris"))| == 5
    ensures MarkersPlacedAsWritten(Str("Paris"))[0] == Str("P")
  {
  }

  /** The markers the dynamic map places, normalised the way the static image normalises them. */
  function MarkersPlaced(markers: Value): (placed: seq<Value>)
    ensures Truthy(markers) && !markers.Arr? ==> placed == [markers]
    ensures !Truthy(markers) ==> placed == []
    ensures markers.Arr? ==> placed == markers.items
  {
    if Truthy(markers) then StaticMap.MarkerList(markers) else []
  }

  /**
   * With the normalisation, the dynamic map places exactly the markers the
   * static image shows, in the same order, and the redirect query is the
   * first of them.
   */
  lemma MarkersPlacedMatchStatic(encode: StaticMap.Encoder, markers: Value)
    requires Truthy(markers)
    ensures StaticMap.Param(encode, StaticMap.Attribute("markers", markers))
      == Strings.Join(StaticMap.MarkerSegments(encode, MarkersPlaced(markers)), "&")
    ensures StaticMap.RedirectQuery([StaticMap.Attribute("markers", markers)])
      == if |MarkersPlaced(markers)| > 0 then ToString(MarkersPlaced(markers)[0]) else ""
  {
  }

  /** The two readings agree on arrays and on falsy values; they part ways on truthy scalars. */
  lemma PlacedAgreesOnArrays(markers: Value)
    requires markers.Arr? || !Truthy(markers)
    ensures MarkersPlaced(markers) == MarkersPlacedAsWritten(markers)
  {
  }

  /** What the dynamic map is built with: its map-type id and, after a successful geocode, the markers it places. */
  datatype DynamicPlan = DynamicPlan(mapType: MapKind, centred: bool, markers: seq<Value>)

  /**
   * `buildDynamicMap` for the given geocoding outcome of the centre: the
   * map type comes from `getMapType(…, false)`; markers are only placed in
   * the success callback, and a failure is only logged.
   */
  function BuildDynamicMap(maptype: Value, markers: Value, geo: StaticMap.Geocode): (p: DynamicPlan)
    ensures p.mapType == KindOf(maptype)
    ensures p.centred <==> geo.Located?
    ensures geo.Failed? ==> p.markers == []
    ensures geo.Located? ==> p.markers == MarkersPlaced(markers)
    ensures geo.Located? && Truthy(markers) && !markers.Arr? ==> p.markers == [markers]
    ensures geo.Located? && markers.Arr? ==> p.markers == markers.items
  {
    var placed := if geo.Located? then MarkersPlaced(markers) else [];
    DynamicPlan(GetMapType(maptype, false).id, geo.Located?, placed)
  }
}

=== FILE: js_values.dfy ===
/**
 * The JavaScript values the directive's options can hold, with the two
 * language rules the directive depends on: truthiness (used by every
 * `if (x)` / `!x` test) and conversion to a string (applied by
 * `encodeURIComponent` and by `+` on strings).
 */
module JsValues {
  import Strings

  /**
   * A JavaScript value. Numbers are integers only; a plain object is
   * opaque because the directive never looks inside one it converts.
   */
  datatype Value =
    | Undefined
    | Null
    | Bool(b: bool)
    | Num(n: int)
    | Str(s: string)
    | Arr(items: seq<Value>)
    | Obj

  /** JavaScript truthiness: false, 0, "", null and undefined are falsy; arrays and objects are truthy. */
  predicate Truthy(v: Value)
  {
    match v
    case Undefined => false
    case Null => false
    case Bool(b) => b
    case Num(n) => n != 0
    case Str(s) => s != ""
    case Arr(_) => true
    case Obj => true
  }

  function DigitChar(d: nat): (c: char)
    requires d < 10
    ensures '0' <= c <= '9'
    ensures c as int - '0' as int == d
  {
    ('0' as int + d) as char
  }

  /** Decimal digits of `n`, most significant first, without leading zeros. */
  function Digits(n: nat): (r: string)
    ensures |r| >= 1
    ensures forall i :: 0 <= i < |r| ==> '0' <= r[i] <= '9'
    ensures n > 0 ==> r[0] != '0'
  {
    if n < 10 then [DigitChar(n)]
    else Digits(n / 10) + [DigitChar(n % 10)]
  }

  /** `String(n)` for an integer `n`. */
  function NumberToString(n: int): string
  {
    if n < 0 then "-" + Digits(-n) else Digits(n)
  }

  /** How an array element is written by `Array.prototype.join`: null and undefined become "". */
  function ElementToString(v: Value): string
    decreases v, 1
  {
    if v == Undefined || v == Null then "" else ToString(v)
  }

  /** `String(v)`: what `encodeURIComponent` and string `+` do to a value first. */
  function ToString(v: Value): string
    decreases v, 0
  {
    match v
    case Undefined => "undefined"
    case Null => "null"
    case Bool(b) => if b then "true" else "false"
    case Num(n) => NumberToString(n)
    case Str(s) => s
    case Arr(items) =>
      Strings.Join(seq(|items|, i requires 0 <= i < |items| => ElementToString(items[i])), ",")
    case Obj => "[object Object]"
  }

  /** Value of decimal digits, the inverse of `Digits`. */
  function DigitsValue(s: string): nat
    requires forall i :: 0 <= i < |s| ==> '0' <= s[i] <= '9'
  {
    if |s| == 0 then 0
    else 10 * DigitsValue(s[..|s| - 1]) + (s[|s| - 1] as int - '0' as int)
  }

  /** Reading the digits back gives the number: the decimal rendering loses nothing. */
  lemma {:induction false} DigitsRoundTrip(n: nat)
    ensures DigitsValue(Digits(n)) == n
  {
    if n >= 10 {
      var d := Digits(n / 10);
      var r := d + [DigitChar(n % 10)];
      assert r == Digits(n);
      assert r[..|r| - 1] == d;
      DigitsRoundTrip(n / 10);
      assert DigitsValue(r) == 10 * DigitsValue(d) + n % 10;
    }
  }
}

=== FILE: map_event_flags.dfy ===
/** The `mapevents` flags shared by the static map and the click handler. */
module MapEventFlags {

  /**
   * The `mapevents` flags, read through JavaScript truthiness. They are
   * copied once when the directive links, so they never change afterwards.
   */
  datatype MapEvents = MapEvents(loadmap: bool, redirect: bool)
}

=== FILE: map_types.dfy ===
/**
 * `getMapType`: the map-type option, turned either into the one-letter code
 * of the redirect link (`t=`) or into the mapping library's map-type id.
 */
module MapTypes {
  import opened JsValues
  import opened Results

  /** The four map types; for the dynamic map they stand for the library's `MapTypeId` constants. */
  datatype MapKind = Roadmap | Satellite | Terrain | Hybrid

  /** The `switch` on the option: strict equality with three names, roadmap for anything else. */
  function KindOf(maptype: Value): (k: MapKind)
    ensures k == Satellite <==> maptype == Str("satellite")
    ensures k == Terrain <==> maptype == Str("terrain")
    ensures k == Hybrid <==> maptype == Str("hybrid")
    ensures k == Roadmap <==> maptype !in {Str("satellite"), Str("terrain"), Str("hybrid")}
  {
    if maptype == Str("satellite") then Satellite
    else if maptype == Str("terrain") then Terrain
    else if maptype == Str("hybrid") then Hybrid
    else Roadmap
  }

  /** The letter the redirect link uses for a map type. */
  function HrefCode(k: MapKind): char
  {
    match k
    case Satellite => 'k'
    case Terrain => 'p'
    case Hybrid => 'h'
    case Roadmap => 'm'
  }

  /** Reading a redirect-link letter back as a map type. */
  function KindOfCode(c: char): Option<MapKind>
  {
    if c == 'k' then Some(Satellite)
    else if c == 'p' then Some(Terrain)
    else if c == 'h' then Some(Hybrid)
    else if c == 'm' then Some(Roadmap)
    else None
  }

  /** What `getMapType` returns: a link letter when `href` is set, a map-type id otherwise. */
  datatype MapTypeChoice = Letter(code: char) | TypeId(id: MapKind)

  function GetMapType(maptype: Value, href: bool): (r: MapTypeChoice)
    ensures r.Letter? <==> href
    ensures r.Letter? ==> r.code in "kphm"
    ensures r.Letter? ==> KindOfCode(r.code) == Some(KindOf(maptype))
    ensures r.TypeId? ==> r.id == KindOf(maptype)
  {
    var k := KindOf(maptype);
    if href then Letter(HrefCode(k)) else TypeId(k)
  }

  /** The letters are a faithful encoding: each map type has its own letter and reads back to itself. */
  lemma CodeRoundTrip(k: MapKind, c: char)
    ensures KindOfCode(HrefCode(k)) == Some(k)
    ensures KindOfCode(c) == Some(k) <==> HrefCode(k) == c
  {
  }

  /** The link letter for each option value: k, p and h for the three names, m for everything else, absent included. */
  lemma HrefLetters(maptype: Value)
    ensures GetMapType(maptype, true) == Letter('k') <==> maptype == Str("satellite")
    ensures GetMapType(maptype, true) == Letter('p') <==> maptype == Str("terrain")
    ensures GetMapType(maptype, true) == Letter('h') <==> maptype == Str("hybrid")
    ensures GetMapType(maptype, true) == Letter('m') <==>
      maptype !in {Str("satellite"), Str("terrain"), Str("hybrid")}
    ensures GetMapType(Undefined, true) == Letter('m')
  {
  }

  /** The link letter and the dynamic map's type id name the same map type. */
  lemma HrefAgreesWithTypeId(maptype: Value)
    ensures GetMapType(maptype, true).code == HrefCode(GetMapType(maptype, false).id)
  {
  }
}

=== FILE: results.dfy ===
/** Success/failure values for the operations that can throw in the directive. */
module Results {

  /** Either a value, or the error the directive would have thrown instead. */
  datatype Result<+T, +E> = Ok(value: T) | Err(error: E)

  /** Either something, or nothing (an absent value or an attribute that is not set). */
  datatype Option<+T> = None | Some(value: T)
}

=== FILE: static_map.dfy ===
/**
 * `buildStaticMap`: the static-map image URL built from an ordered set of
 * attributes, and the redirect link the same call prepares once the
 * centre has been geocoded.
 */
module StaticMap {
  import opened JsValues
  import opened Strings
  import opened MapTypes
  import MapEventFlags

  /** Prefix of every static-map image URL. */
  const StaticUrl: string := "//maps.googleapis.com/maps/api/staticmap?"

  /** Prefix of the redirect link. */
  const RedirectBase: string := "http://maps.apple.com/?"

  /**
   * One property of the attribute object. The object is a list of these in
   * the order `Object.keys` returns them; its keys are distinct, so an
   * entry's value is the object's value for that key.
   */
  datatype Attribute = Attribute(key: string, value: Value)

  /** `encodeURIComponent`, applied to the string form of a value. */
  type Encoder = string -> string

  /** `attrs[key]`: the value stored under `key`, undefined when there is none. */
  function Lookup(attrs: seq<Attribute>, key: string): (v: Value)
    ensures v != Undefined ==> exists i :: 0 <= i < |attrs| && attrs[i] == Attribute(key, v)
    ensures (forall i :: 0 <= i < |attrs| ==> attrs[i].key != key) ==> v == Undefined
    ensures forall i :: (0 <= i < |attrs| && attrs[i].key == key &&
      (forall j :: 0 <= j < i ==> attrs[j].key != key)) ==> v == attrs[i].value
  {
    if |attrs| == 0 then Undefined
    else if attrs[0].key == key then attrs[0].value
    else Lookup(attrs[1..], key)
  }

  /** An entry whose key no earlier entry has is the one `attrs[key]` reads. */
  lemma {:induction false} LookupFirst(attrs: seq<Attribute>, i: nat)
    requires i < |attrs|
    requires forall j :: 0 <= j < i ==> attrs[j].key != attrs[i].key
    ensures Lookup(attrs, attrs[i].key) == attrs[i].value
  {
    if i > 0 {
      LookupFirst(attrs[1..], i - 1);
    }
  }

  /** The markers after normalisation: an array as it is, any other value as a one-element list. */
  function MarkerList(markers: Value): (ms: seq<Value>)
    ensures !markers.Arr? ==> ms == [markers]
    ensures markers.Arr? ==> ms == markers.items
    ensures |ms| == 0 <==> markers == Arr([])
  {
    if markers.Arr? then markers.items else [markers]
  }

  /** The `markers=` parameter for one marker. */
  function MarkerSegment(encode: Encoder, marker: Value): string
  {
    "markers=" + encode(ToString(marker))
  }

  /** One `markers=` parameter per marker, in list order. */
  function MarkerSegments(encode: Encoder, markers: seq<Value>): (segs: seq<string>)
    ensures |segs| == |markers|
    ensures forall i :: 0 <= i < |markers| ==> segs[i] == MarkerSegment(encode, markers[i])
  {
    if |markers| == 0 then []
    else [MarkerSegment(encode, markers[0])] + MarkerSegments(encode, markers[1..])
  }

  /** The `key=value` parameter of a plain attribute. */
  function PlainParam(encode: Encoder, a: Attribute): string
  {
    encode(a.key) + "=" + encode(ToString(a.value))
  }

  /**
   * The parameter an attribute contributes: a truthy `markers` value expands
   * to its marker parameters joined with `&`; every other attribute, a falsy
   * `markers` included, is `key=value`.
   */
  function Param(encode: Encoder, a: Attribute): (p: string)
    ensures p == Join(Segments(encode, a), "&")
    ensures p == "" <==> a == Attribute("markers", Arr([]))
  {
    if a.key == "markers" && Truthy(a.value) then
      var segs := MarkerSegments(encode, MarkerList(a.value));
      JoinStartsWithFirst(segs, "&");
      Join(segs, "&")
    else PlainParam(encode, a)
  }

  /** The parameters of all attributes, one per attribute, in key order. */
  function Params(encode: Encoder, attrs: seq<Attribute>): (ps: seq<string>)
    ensures |ps| == |attrs|
    ensures forall i :: 0 <= i < |attrs| && !(attrs[i].key == "markers" && Truthy(attrs[i].value)) ==>
      ps[i] == encode(attrs[i].key) + "=" + encode(ToString(attrs[i].value))
    ensures forall i :: 0 <= i < |attrs| && attrs[i].key == "markers" && Truthy(attrs[i].value) ==>
      ps[i] == Join(MarkerSegments(encode, MarkerList(attrs[i].value)), "&")
  {
    if |attrs| == 0 then []
    else [Param(encode, attrs[0])] + Params(encode, attrs[1..])
  }

  /**
   * One step of the reduce that joins the parameters: an empty accumulator
   * is replaced by the next parameter, otherwise `&` and the next one are
   * appended.
   */
  function ReduceStep(acc: string, p: string): (r: string)
    ensures r == Join(DropLeadingEmpty([acc, p]), "&")
  {
    assert [acc, p][1..] == [p];
    assert [p][1..] == [];
    if acc == "" then
      assert DropLeadingEmpty([acc, p]) == DropLeadingEmpty([p]);
      p
    else
      assert DropLeadingEmpty([acc, p]) == [acc, p];
      acc + "&" + p
  }

  /** The reduce over the parameters, from the left, starting at `acc`: every non-empty value from the first one on is joined with `&`. */
  function Reduce(acc: string, ps: seq<string>): (r: string)
    ensures r == Join(DropLeadingEmpty([acc] + ps), "&")
    decreases |ps|
  {
    if |ps| == 0 then
      assert [acc] + ps == [acc];
      assert acc == "" ==> DropLeadingEmpty([acc]) == [];
      acc
    else
      ReduceStepJoin(acc, ps);
      Reduce(ReduceStep(acc, ps[0]), ps[1..])
  }

  /** Folding the first parameter into the accumulator does not change the joined result. */
  lemma ReduceStepJoin(acc: string, ps: seq<string>)
    requires |ps| >= 1
    ensures Join(DropLeadingEmpty([ReduceStep(acc, ps[0])] + ps[1..]), "&") == Join(DropLeadingEmpty([acc] + ps), "&")
  {
    if acc == "" {
      assert ReduceStep(acc, ps[0]) == ps[0];
      FreshStepJoin(ps);
    } else {
      assert ReduceStep(acc, ps[0]) == acc + "&" + ps[0];
      StartedStepJoin(acc, ps);
    }
  }

  /** With an empty accumulator, the first parameter followed by the rest joins like the parameters themselves. */
  lemma FreshStepJoin(ps: seq<string>)
    requires |ps| >= 1
    ensures Join(DropLeadingEmpty([ps[0]] + ps[1..]), "&") == Join(DropLeadingEmpty([""] + ps), "&")
  {
    assert [ps[0]] + ps[1..] == ps;
    assert ([""] + ps)[1..] == ps;
    assert DropLeadingEmpty([""] + ps) == DropLeadingEmpty(ps);
  }

  /** With a non-empty accumulator, `acc&p` followed by the rest joins like `acc`, `p` and the rest. */
  lemma StartedStepJoin(acc: string, ps: seq<string>)
    requires acc != "" && |ps| >= 1
    ensures Join(DropLeadingEmpty([acc + "&" + ps[0]] + ps[1..]), "&") == Join(DropLeadingEmpty([acc] + ps), "&")
  {
    var p, rest := ps[0], ps[1..];
    var s := acc + "&" + p;
    assert DropLeadingEmpty([s] + rest) == [s] + rest;
    assert DropLeadingEmpty([acc] + ps) == [acc] + ps;
    assert ([s] + rest)[1..] == rest;
    assert ([acc] + ps)[1..] == ps;
    assert Join([acc] + ps, "&") == acc + "&" + Join(ps, "&");
    if |rest| > 0 {
      AppendAssoc(acc + "&", p + "&", Join(rest, "&"));
      AppendAssoc(acc + "&", p, "&");
      calc {
        Join([acc] + ps, "&");
        acc + "&" + (p + "&" + Join(rest, "&"));
        s + "&" + Join(rest, "&");
        Join([s] + rest, "&");
      }
    } else {
      assert Join(ps, "&") == p;
      assert [s] + rest == [s];
    }
  }

  /** The reduce from "" joins the parameters with `&` after skipping leading empty ones: it never adds a leading separator. */
  lemma ReduceIsJoin(ps: seq<string>)
    ensures Reduce("", ps) == Join(DropLeadingEmpty(ps), "&")
  {
    assert ([""] + ps)[1..] == ps;
  }

  /** The query of the redirect link: the first marker, or "" when there is none. */
  function RedirectQuery(attrs: seq<Attribute>): (q: string)
    ensures var m := Lookup(attrs, "markers");
      && (!Truthy(m) ==> q == "")
      && (m == Arr([]) ==> q == "")
      && (Truthy(m) && !m.Arr? ==> q == ToString(m))
      && (m.Arr? && |m.items| > 0 ==> q == ToString(m.items[0]))
  {
    var m := Lookup(attrs, "markers");
    if Truthy(m) && |MarkerList(m)| > 0 then ToString(MarkerList(m)[0]) else ""
  }

  /** What `buildStaticMap` produces: the image URL, the redirect query, and whether it asks for the centre to be geocoded. */
  datatype StaticMapResult = StaticMapResult(imgsrc: string, query: string, requestsGeocode: bool)

  /**
   * `buildStaticMap`. `hasLocation` says whether a geocoded location is
   * already on the scope; the redirect link is only prepared without one.
   */
  function BuildStaticMap(encode: Encoder, events: MapEventFlags.MapEvents, attrs: seq<Attribute>, hasLocation: bool)
    : (r: StaticMapResult)
    ensures r.imgsrc == StaticUrl + Join(DropLeadingEmpty(Params(encode, attrs)), "&")
    ensures DropLeadingEmpty(Params(encode, attrs)) == [] ==> r.imgsrc == StaticUrl
    ensures DropLeadingEmpty(Params(encode, attrs)) != [] ==>
      StaticUrl + DropLeadingEmpty(Params(encode, attrs))[0] <= r.imgsrc
    ensures r.requestsGeocode <==> events.redirect && !hasLocation
    ensures r.query == RedirectQuery(attrs)
  {
    var ps := Params(encode, attrs);
    ReduceIsJoin(ps);
    JoinStartsWithFirst(DropLeadingEmpty(ps), "&");
    StaticMapResult(StaticUrl + Reduce("", ps), RedirectQuery(attrs), events.redirect && !hasLocation)
  }

  /** When the first attribute is not a truthy `markers` entry, the image URL starts with its `key=value` right after the prefix. */
  lemma ImageStartsWithFirstParam(encode: Encoder, events: MapEventFlags.MapEvents, attrs: seq<Attribute>, hasLocation: bool)
    requires |attrs| >= 1
    requires !(attrs[0].key == "markers" && Truthy(attrs[0].value))
    ensures StaticUrl + PlainParam(encode, attrs[0]) <= BuildStaticMap(encode, events, attrs, hasLocation).imgsrc
  {
    var ps := Params(encode, attrs);
    var first := PlainParam(encode, attrs[0]);
    assert ps[0] == first;
    assert first != "" by { assert first[|encode(attrs[0].key)|] == '='; }
    assert DropLeadingEmpty(ps) == ps;
  }

  /** A scalar `markers` value is one marker: one parameter, and it is the redirect query. */
  lemma ScalarMarker(encode: Encoder, v: Value)
    requires Truthy(v) && !v.Arr?
    ensures Param(encode, Attribute("markers", v)) == "markers=" + encode(ToString(v))
    ensures RedirectQuery([Attribute("markers", v)]) == ToString(v)
  {
  }

  /** `encodeURIComponent` never produces `&` (it is escaped as `%26`). */
  ghost predicate EscapesAmpersand(encode: Encoder)
  {
    forall s :: '&' !in encode(s)
  }

  /** Splitting the joined marker parameters on `&` gives back one `markers=` parameter per marker, in order. */
  lemma MarkerParamsSplit(encode: Encoder, markers: seq<Value>)
    requires EscapesAmpersand(encode)
    requires |markers| >= 1
    ensures Split(Join(MarkerSegments(encode, markers), "&"), '&') == MarkerSegments(encode, markers)
    ensures |Split(Join(MarkerSegments(encode, markers), "&"), '&')| == |markers|
  {
    var segs := MarkerSegments(encode, markers);
    forall i | 0 <= i < |segs|
      ensures '&' !in segs[i]
    {
      assert segs[i] == "markers=" + encode(ToString(markers[i]));
    }
    assert "&" == ['&'];
    SplitJoin(segs, '&');
  }

  /** The `&`-separated pieces one attribute contributes: one per marker, or its single `key=value`. */
  function Segments(encode: Encoder, a: Attribute): seq<string>
  {
    if a.key == "markers" && Truthy(a.value) then MarkerSegments(encode, MarkerList(a.value))
    else [PlainParam(encode, a)]
  }

  /** The pieces of all attributes, in key order. */
  function AllSegments(encode: Encoder, attrs: seq<Attribute>): seq<string>
  {
    if |attrs| == 0 then [] else Segments(encode, attrs[0]) + AllSegments(encode, attrs[1..])
  }

  lemma AllSegmentsCons(encode: Encoder, a: Attribute, rest: seq<Attribute>)
    ensures AllSegments(encode, [a] + rest) == Segments(encode, a) + AllSegments(encode, rest)
  {
  }

  /** Attributes other than `markers`, then one more: a `key=value` piece each, then the last one's pieces. */
  lemma {:induction false} PlainSegments(encode: Encoder, plain: seq<Attribute>, m: Attribute)
    requires forall i :: 0 <= i < |plain| ==> plain[i].key != "markers"
    ensures var segs := AllSegments(encode, plain + [m]);
      && |segs| == |plain| + |Segments(encode, m)|
      && (forall i :: 0 <= i < |plain| ==> segs[i] == PlainParam(encode, plain[i]))
      && segs[|plain|..] == Segments(encode, m)
    decreases |plain|
  {
    if |plain| == 0 {
      AllSegmentsCons(encode, m, []);
      assert [m] + [] == [m];
    } else {
      var rest := plain[1..];
      assert plain + [m] == [plain[0]] + (rest + [m]);
      AllSegmentsCons(encode, plain[0], rest + [m]);
      PlainSegments(encode, rest, m);
    }
  }

  /** No attribute is a `markers` entry holding an empty array. */
  predicate NoEmptyMarkers(attrs: seq<Attribute>)
  {
    forall i :: 0 <= i < |attrs| ==> attrs[i] != Attribute("markers", Arr([]))
  }

  lemma {:induction false} ParamsJoinSegments(encode: Encoder, attrs: seq<Attribute>)
    requires |attrs| >= 1
    requires NoEmptyMarkers(attrs)
    ensures |AllSegments(encode, attrs)| >= 1
    ensures Join(Params(encode, attrs), "&") == Join(AllSegments(encode, attrs), "&")
  {
    var first := Segments(encode, attrs[0]);
    assert |first| >= 1;
    if |attrs| > 1 {
      var ps := Params(encode, attrs);
      var rest := AllSegments(encode, attrs[1..]);
      assert ps[0] == Param(encode, attrs[0]);
      assert ps[1..] == Params(encode, attrs[1..]);
      assert Join(ps, "&") == ps[0] + "&" + Join(ps[1..], "&");
      ParamsJoinSegments(encode, attrs[1..]);
      JoinAppend(first, rest, "&");
      assert AllSegments(encode, attrs) == first + rest;
    } else {
      assert Params(encode, attrs) == [Param(encode, attrs[0])];
      assert AllSegments(encode, attrs) == first + AllSegments(encode, []);
      assert first + [] == first;
    }
  }

  lemma {:induction false} SegmentsAvoidAmpersand(encode: Encoder, attrs: seq<Attribute>)
    requires EscapesAmpersand(encode)
    ensures forall i :: 0 <= i < |AllSegments(encode, attrs)| ==> '&' !in AllSegments(encode, attrs)[i]
  {
    if |attrs| > 0 {
      var first := Segments(encode, attrs[0]);
      assert forall i :: 0 <= i < |first| ==> '&' !in first[i];
      SegmentsAvoidAmpersand(encode, attrs[1..]);
    }
  }

  /**
   * The query of the image URL, split on `&`, is exactly the attributes'
   * pieces in key order: one `markers=` piece per marker and one
   * `key=value` piece for every other attribute.
   */
  lemma ImageQuerySegments(encode: Encoder, events: MapEventFlags.MapEvents, attrs: seq<Attribute>, hasLocation: bool)
    requires EscapesAmpersand(encode)
    requires |attrs| >= 1
    requires NoEmptyMarkers(attrs)
    ensures var r := BuildStaticMap(encode, events, attrs, hasLocation);
      StaticUrl <= r.imgsrc && Split(r.imgsrc[|StaticUrl|..], '&') == AllSegments(encode, attrs)
  {
    var ps := Params(encode, attrs);
    var segs := AllSegments(encode, attrs);
    assert ps[0] == Param(encode, attrs[0]);
    assert DropLeadingEmpty(ps) == ps;
    var r := BuildStaticMap(encode, events, attrs, hasLocation);
    assert r.imgsrc == StaticUrl + Join(ps, "&");
    assert r.imgsrc[|StaticUrl|..] == Join(ps, "&");
    ParamsJoinSegments(encode, attrs);
    SegmentsAvoidAmpersand(encode, attrs);
    assert "&" == ['&'];
    SplitJoin(segs, '&');
  }

  /** The outcome of geocoding the centre: a location, or the failure message. */
  datatype Geocode = Located(lat: string, lng: string) | Failed(message: string)

  /**
   * The redirect link set by the geocoding callbacks, for the given zoom and
   * map-type values: with the location when geocoding succeeded, without it
   * otherwise, and always ending in the map-type letter.
   */
  function RedirectHref(geo: Geocode, query: string, zoom: Value, maptype: Value): (href: string)
    ensures RedirectBase <= href
    ensures RedirectHead(geo, query) <= href
    ensures EndsWith(href, "&z=" + ToString(zoom) + "&t=" + [HrefCode(KindOf(maptype))])
    ensures EndsWith(href, TypeField(maptype))
    ensures href[|href| - 1] == HrefCode(KindOf(maptype))
  {
    var head := RedirectHead(geo, query);
    var tail := ZoomField(zoom) + TypeField(maptype);
    var href := head + tail;
    AppendAssoc(head, ZoomField(zoom), TypeField(maptype));
    AppendAssoc(ZoomField(zoom), "&t=", [HrefCode(KindOf(maptype))]);
    EndsWithAppend(head, tail);
    EndsWithAppend(head + ZoomField(zoom), TypeField(maptype));
    EndsWithLast(href, TypeField(maptype));
    href
  }

  /**
   * Reading the redirect link back: when the zoom text has no `&`, the last
   * two `&`-separated fields are `z=<zoom>` and `t=<letter>`, and the letter
   * decodes to the configured map type.
   */
  lemma RedirectFields(geo: Geocode, query: string, zoom: Value, maptype: Value)
    requires '&' !in ToString(zoom)
    ensures var fields := Split(RedirectHref(geo, query, zoom, maptype), '&');
      && |fields| >= 3
      && fields[|fields| - 2..] == ["z=" + ToString(zoom), "t=" + [GetMapType(maptype, true).code]]
  {
    var head := RedirectHead(geo, query);
    var z := "z=" + ToString(zoom);
    var letter := "t=" + [HrefCode(KindOf(maptype))];
    assert '&' !in letter;
    RedirectHrefShape(geo, query, zoom, maptype);
    SplitLastTwo(head, z, letter, '&');
  }

  /** The redirect link is the head, then `&`, the zoom field, `&` and the type field. */
  lemma RedirectHrefShape(geo: Geocode, query: string, zoom: Value, maptype: Value)
    ensures RedirectHref(geo, query, zoom, maptype) ==
      RedirectHead(geo, query) + ['&'] + ("z=" + ToString(zoom)) + ['&'] + ("t=" + [HrefCode(KindOf(maptype))])
  {
    var head := RedirectHead(geo, query);
    var z := "z=" + ToString(zoom);
    var letter := "t=" + [HrefCode(KindOf(maptype))];
    assert ZoomField(zoom) == ['&'] + z;
    assert TypeField(maptype) == ['&'] + letter;
    var front := head + ['&'] + z;
    AppendAssoc(head, ['&'], z);
    AppendAssoc(front, ['&'], letter);
    AppendAssoc(head, ZoomField(zoom), TypeField(maptype));
  }

  /**
   * The redirect link up to its `&z=` field: with the coordinates and the
   * query after a successful geocode, with the query alone otherwise.
   */
  function RedirectHead(geo: Geocode, query: string): (head: string)
    ensures RedirectBase <= head
    ensures geo.Located? ==> RedirectBase + "ll=" + geo.lat + "," + geo.lng + "&q=" <= head
    ensures EndsWith(head, "&q=" + query)
    ensures |head| == |RedirectBase| + (if geo.Located? then 4 + |geo.lat| + |geo.lng| else 0) + 3 + |query|
  {
    match geo
    case Located(lat, lng) => RedirectBase + "ll=" + lat + "," + lng + "&q=" + query
    case Failed(_) => RedirectBase + "&q=" + query
  }

  /** The `&z=` field: the zoom value in its string form. */
  function ZoomField(zoom: Value): string
  {
    "&z=" + ToString(zoom)
  }

  /** The `&t=` field: the map-type letter. */
  function TypeField(maptype: Value): string
  {
    "&t=" + [GetMapType(maptype, true).code]
  }

  /**
   * The redirect link as the callbacks build it: they read `zoom` and
   * `maptype` from the directive's isolated scope. That scope binds only
   * `options`, and the controller assigns `location`, `MAP_HREF`, `imgsrc`,
   * `style` and `updateStyle` but never `zoom` or `maptype`, so both read
   * undefined whatever the options say.
   */
  function RedirectHrefAsWritten(geo: Geocode, query: string): (href: string)
    ensures RedirectHead(geo, query) <= href
    ensures EndsWith(href, "&z=undefined&t=m")
  {
    assert "&z=" + ToString(Undefined) + "&t=" + [HrefCode(KindOf(Undefined))] == "&z=undefined&t=m";
    RedirectHref(geo, query, Undefined, Undefined)
  }
}

=== FILE: strings.dfy ===
/**
 * String helpers with the meaning the directive relies on:
 * `Join` is `Array.prototype.join` and `Split` is `String.prototype.split`
 * with a one-character separator.
 */
module Strings {

  /** `parts` with `sep` between each pair of neighbours; the empty list joins to "". */
  function Join(parts: seq<string>, sep: string): string
  {
    if |parts| == 0 then ""
    else if |parts| == 1 then parts[0]
    else parts[0] + sep + Join(parts[1..], sep)
  }

  /** Concatenation is associative; stated once so that callers need not rediscover it. */
  lemma AppendAssoc(x: string, y: string, z: string)
    ensures x + (y + z) == x + y + z
  {
  }

  /** `t` is a suffix of `s`. */
  predicate EndsWith(s: string, t: string)
  {
    |t| <= |s| && s[|s| - |t|..] == t
  }

  lemma EndsWithAppend(a: string, b: string)
    ensures EndsWith(a + b, b)
  {
  }

  /** A string and its suffix end in the same character. */
  lemma EndsWithLast(s: string, t: string)
    requires EndsWith(s, t) && |t| > 0
    ensures s[|s| - 1] == t[|t| - 1]
  {
  }

  /** Number of occurrences of `c` in `s`. */
  function Count(s: string, c: char): nat
  {
    if |s| == 0 then 0
    else (if s[0] == c then 1 else 0) + Count(s[1..], c)
  }

  /** Position of the first `c` in `s`. */
  function IndexOf(s: string, c: char): (i: nat)
    requires c in s
    ensures i < |s| && s[i] == c
    ensures c !in s[..i]
  {
    if s[0] == c then 0
    else
      var j := IndexOf(s[1..], c);
      assert s[..j + 1] == [s[0]] + s[1..][..j];
      1 + j
  }

  /** The pieces of `s` between occurrences of `c`, in order; never an empty list. */
  function Split(s: string, c: char): (pieces: seq<string>)
    ensures |pieces| >= 1
    ensures forall i :: 0 <= i < |pieces| ==> c !in pieces[i]
    decreases |s|
  {
    if c !in s then [s]
    else
      var i := IndexOf(s, c);
      [s[..i]] + Split(s[i + 1..], c)
  }

  /** `ps` without its leading empty strings. */
  function DropLeadingEmpty(ps: seq<string>): (r: seq<string>)
    ensures |r| > 0 ==> r[0] != ""
  {
    if |ps| == 0 then []
    else if ps[0] == "" then DropLeadingEmpty(ps[1..])
    else ps
  }

  lemma {:induction false} CountAppend(a: string, b: string, c: char)
    ensures Count(a + b, c) == Count(a, c) + Count(b, c)
    decreases |a|
  {
    if |a| == 0 {
      assert a + b == b;
    } else {
      assert (a + b)[1..] == a[1..] + b;
      CountAppend(a[1..], b, c);
    }
  }

  lemma {:induction false} CountAbsent(s: string, c: char)
    requires c !in s
    ensures Count(s, c) == 0
    decreases |s|
  {
    if |s| > 0 {
      assert c !in s[1..];
      CountAbsent(s[1..], c);
    }
  }

  /** Splitting on `c` gives one piece more than there are `c`s. */
  lemma {:induction false} SplitCount(s: string, c: char)
    ensures |Split(s, c)| == Count(s, c) + 1
    decreases |s|
  {
    if c !in s {
      CountAbsent(s, c);
    } else {
      var i := IndexOf(s, c);
      assert s == s[..i] + [c] + s[i + 1..];
      CountAppend(s[..i] + [c], s[i + 1..], c);
      CountAppend(s[..i], [c], c);
      CountAbsent(s[..i], c);
      SplitCount(s[i + 1..], c);
    }
  }

  /** Joining the pieces with the separator gives the string back. */
  lemma {:induction false} JoinSplit(s: string, c: char)
    ensures Join(Split(s, c), [c]) == s
    decreases |s|
  {
    if c in s {
      var i := IndexOf(s, c);
      var rest := Split(s[i + 1..], c);
      JoinSplit(s[i + 1..], c);
      assert ([s[..i]] + rest)[1..] == rest;
      assert s == s[..i] + [c] + s[i + 1..];
    }
  }

  /** The first occurrence of `c` in `a + [c] + b` is right after `a` when `a` has none. */
  lemma IndexAfterPrefix(a: string, b: string, c: char)
    requires c !in a
    ensures c in a + [c] + b
    ensures IndexOf(a + [c] + b, c) == |a|
  {
    var s := a + [c] + b;
    assert s[|a|] == c;
    assert s[..|a|] == a;
  }

  /** Extending a string after an occurrence of `c` does not move its first `c`. */
  lemma {:induction false} IndexOfPrefix(a: string, t: string, c: char)
    requires c in a
    ensures c in a + t
    ensures IndexOf(a + t, c) == IndexOf(a, c)
    decreases |a|
  {
    var s := a + t;
    assert s[0] == a[0];
    if a[0] != c {
      assert c in a[1..];
      assert s[1..] == a[1..] + t;
      IndexOfPrefix(a[1..], t, c);
    }
  }

  /** A last piece without `c`, appended after a `c`, becomes the last piece of the split. */
  lemma {:induction false} SplitLast(a: string, b: string, c: char)
    requires c !in b
    ensures Split(a + [c] + b, c) == Split(a, c) + [b]
    decreases |a|
  {
    var s := a + [c] + b;
    if c !in a {
      IndexAfterPrefix(a, b, c);
      assert s[..|a|] == a;
      assert s[|a| + 1..] == b;
      assert Split(s, c) == [a] + [b];
    } else {
      var i := IndexOf(a, c);
      IndexOfPrefix(a, [c] + b, c);
      assert s == a + ([c] + b);
      assert s[..i] == a[..i];
      assert s[i + 1..] == a[i + 1..] + [c] + b;
      SplitLast(a[i + 1..], b, c);
      var rest := Split(a[i + 1..], c);
      assert Split(s, c) == [a[..i]] + (rest + [b]);
      assert Split(a, c) == [a[..i]] + rest;
      assert [a[..i]] + (rest + [b]) == [a[..i]] + rest + [b];
    }
  }

  /** The last two pieces of a string that ends in `c`, `y`, `c`, `z` are `y` and `z`. */
  lemma SplitLastTwo(x: string, y: string, z: string, c: char)
    requires c !in y && c !in z
    ensures var pieces := Split(x + [c] + y + [c] + z, c);
      |pieces| >= 3 && pieces[|pieces| - 2..] == [y, z]
  {
    SplitLast(x + [c] + y, z, c);
    SplitLast(x, y, c);
    var pieces := Split(x, c) + [y] + [z];
    assert pieces[|pieces| - 2..] == [y, z];
  }

  /** Splitting a join of separator-free pieces gives the pieces back. */
  lemma {:induction false} SplitJoin(parts: seq<string>, c: char)
    requires |parts| >= 1
    requires forall i :: 0 <= i < |parts| ==> c !in parts[i]
    ensures Split(Join(parts, [c]), c) == parts
    decreases |parts|
  {
    if |parts| > 1 {
      var a := parts[0];
      var tail := parts[1..];
      var b := Join(tail, [c]);
      var s := a + [c] + b;
      assert Join(parts, [c]) == s;
      assert c !in a;
      IndexAfterPrefix(a, b, c);
      assert s[..|a|] == a;
      assert s[|a| + 1..] == b;
      assert Split(s, c) == [a] + Split(b, c);
      assert forall i :: 0 <= i < |tail| ==> tail[i] == parts[i + 1];
      SplitJoin(tail, c);
      assert parts == [a] + tail;
    }
  }

  /** The first piece is a prefix of the joined string. */
  lemma JoinStartsWithFirst(parts: seq<string>, sep: string)
    ensures |parts| >= 1 ==> parts[0] <= Join(parts, sep)
  {
  }

  /** Joining two non-empty lists is joining each and putting one separator between. */
  lemma {:induction false} JoinAppend(a: seq<string>, b: seq<string>, sep: string)
    requires |a| >= 1 && |b| >= 1
    ensures Join(a + b, sep) == Join(a, sep) + sep + Join(b, sep)
    decreases |a|
  {
    if |a| == 1 {
      assert (a + b)[1..] == b;
    } else {
      assert (a + b)[1..] == a[1..] + b;
      JoinAppend(a[1..], b, sep);
    }
  }
}
